=== FILE: README.md ===
# Data quality validator, modelled in Dafny

A model of the Python data-quality framework in `data_quality_validator.py`
and proofs about it. A *rule* maps a table to a boolean mask with one entry per
row. *Evaluating* the rule turns the mask into a `RuleResult`:

- its name
- `passed`
- the number of `false` entries (`failures`)
- the row count (`total`)
- the failing rows (`details`)

A *validator* keeps rules in the order they were added. `validate` evaluates
each rule in that order, and `summary` reduces the results to records without
their details. The built-in rule factories are `not_null`, `in_range`,
`unique` and `matches_regex`.

The model is functional:

- A table is a list of column names and a sequence of rows. Each row is a
  `map<string, Option<Value>>`, where `None` is a null cell and a value is an
  integer or a text.
- A rule is a datatype with one variant per factory, plus `Custom` for a rule
  built directly from a name, a description and a mask function.
- Errors that pandas would raise are `Failure` values of a `Result`:
  - `KeyError` for a column the table lacks.
  - `TypeError` for an ordering comparison against a text cell.
  - `Raised` for any exception a directly built rule's function raises.

Modules, one per file:

| file | module | contents |
|---|---|---|
| `base.dfy` | `Base` | `Option`, `Result` |
| `strings.dfy` | `Strings` | decimal rendering of integers, `','.join`, and a splitting inverse |
| `tables.dfy` | `Tables` | tables, counting `false` mask entries, selecting failing rows |
| `masks.dfy` | `Masks` | the mask each factory computes, and its errors |
| `rules.dfy` | `Rules` | `Rule`, rule names and descriptions, `Evaluate`, `ToDict` |
| `validation.dfy` | `Validation` | `Validator`, `AddRule`, `Validate` (a loop) against `EvaluateAll` (its reference definition), `Summary` |
| `demo.dfy` | `Demo` | the module's usage example worked out as lemmas |

## Model

Three members are plain definitions without contracts of their own; the rows
named here state their properties:

- `Rules.Rule.Name` (the factory name f-strings, data_quality_validator.py:71, 79, 85, 91): `Rules.NotNullNameDeterminesColumns`, `Rules.InRangeNameIgnoresInclusive`, `Demo.SampleNotNull` and `Demo.SampleInRange`.
- `Rules.ToDict` (`to_dict`, data_quality_validator.py:21-27): `Rules.ToDictForgetsDetails`.
- `Validation.NewValidator` (`__init__`, data_quality_validator.py:48-49): `Validation.NewValidatorStartsEmpty`.

| member | source | states |
|---|---|---|
| Tables.CountFalse | data_quality_validator.py:41-42 | the failure count is at most the mask length, and it is zero exactly when every entry is true |
| Tables.CountFalseIsMultiplicity | data_quality_validator.py:41-42 | `int((~mask).sum())` is the number of `false` entries in the mask |
| Tables.FailingPlusPassing | data_quality_validator.py:40-42 | false entries plus true entries add up to the mask length |
| Tables.FalsePositions | data_quality_validator.py:43 | the failing positions lie in range, each has a `false` entry, they are strictly increasing, and there are as many as there are failures |
| Tables.FalsePositionsComplete | data_quality_validator.py:43 | every position with a `false` entry is among the failing positions |
| Tables.SelectFailing | data_quality_validator.py:43 | `df.loc[~mask]` has one row per failure, and the k-th selected row is the row at the k-th failing position, so original order is kept |
| Tables.SelectedIffFailing | data_quality_validator.py:43 | row i is selected if and only if its mask entry is false |
| Tables.SelectKeepsSchema | data_quality_validator.py:43 | the failing-row table keeps the input's columns: every selected row has exactly the table's column keys |
| Masks.FirstMissing | data_quality_validator.py:70 | no missing column is reported exactly when all listed columns exist; a reported column is listed and absent |
| Masks.NotNullMask | data_quality_validator.py:68-70 | fails with `KeyError` on a listed column that is absent, and only then; otherwise one entry per row, true exactly when all listed cells of the row are non-null |
| Masks.NotNullNoColumns | data_quality_validator.py:70 | with an empty column list every row passes |
| Masks.NotNullConcat | data_quality_validator.py:70 | a row passes the rule on `cols1 + cols2` exactly when it passes the rule on each part |
| Masks.InRangeMask | data_quality_validator.py:74-78 | `KeyError` for an absent column and `TypeError` for a column holding text, and only then; otherwise row i passes exactly when its value v has `lo <= v <= hi` (inclusive) or `lo < v < hi` (exclusive), and a null never passes |
| Masks.ExclusiveWithinInclusive | data_quality_validator.py:76-78 | every row passing the exclusive check passes the inclusive one, and the two differ only on a cell equal to a bound |
| Masks.ReversedBoundsFailAll | data_quality_validator.py:76-78 | with `min > max` no row passes, in either mode |
| Masks.UniqueMask | data_quality_validator.py:82-84 | `KeyError` exactly when the column is absent; otherwise one entry per row |
| Masks.OccursOnceIffNoOther | data_quality_validator.py:84 | a value occurs once in a sequence if and only if no other position holds it |
| Masks.UniqueIffNoOtherRow | data_quality_validator.py:84 | row i passes `~duplicated(keep=False)` if and only if no other row has the same cell (nulls count as equal), so every copy of a repeated value fails |
| Masks.UniqueNeverOneFailure | data_quality_validator.py:84 | duplicates fail in pairs or more, so the failure count is never exactly one |
| Masks.Render | data_quality_validator.py:90 | in a column of object dtype under pandas 2.x, `astype(str)` gives "None" for a null, the decimal text of an integer (which parses back to it), and a text unchanged |
| Masks.RegexMask | data_quality_validator.py:88-90 | `KeyError` exactly when the column is absent; otherwise row i passes exactly when the matcher accepts the rendered cell |
| Masks.NullsMatchAsNoneText | data_quality_validator.py:90 | in a column of object dtype under pandas 2.x, a null cell passes exactly when the matcher accepts the text "None" |
| Strings.NatToString | data_quality_validator.py:79 | the decimal text of a natural number is non-empty, all digits, with no leading zero |
| Strings.IntToString | data_quality_validator.py:79 | the text of an integer is a well-formed decimal, starting with '-' exactly when the integer is negative |
| Strings.ParseNatToString | data_quality_validator.py:79 | reading back the decimal text of a natural number gives the number |
| Strings.ParseIntToString | data_quality_validator.py:79 | reading back the text of an integer gives the integer |
| Strings.IntToStringInjective | data_quality_validator.py:79 | different bounds give different texts in the range rule's name |
| Strings.Join | data_quality_validator.py:71 | joining no parts gives the empty text |
| Strings.IndexOf | data_quality_validator.py:71 | the first position of the separator: it holds the separator, and no earlier position does |
| Strings.Split | data_quality_validator.py:71 | splitting gives at least one part, and no part contains the separator |
| Strings.SplitAfterPiece | data_quality_validator.py:71 | splitting a separator-free piece followed by the separator gives that piece and then the split of the rest |
| Strings.SplitJoin | data_quality_validator.py:71 | splitting a comma-join of comma-free parts gives back the parts |
| Rules.MaskOf | data_quality_validator.py:37 | a successful mask has one entry per row; a directly built rule's mask, or the exception its function raises, is exactly what the function returns |
| Rules.CustomErrorPropagates | data_quality_validator.py:36-37 | an exception raised by a directly built rule's function is what `evaluate` raises, and no result is produced |
| Rules.Evaluate | data_quality_validator.py:36-44 | fails exactly when the mask fails, with the same error and without wrapping; otherwise the name is the rule's, `total` is the row count, `0 <= failures <= total`, `passed` iff `failures == 0`, and `details` has `failures` rows |
| Rules.EvaluateReports | data_quality_validator.py:40-44 | `failures` is the number of false mask entries, `passed` holds iff every entry is true, and `details` has the input's columns and exactly the rows at the failing positions, in order |
| Rules.ToDictForgetsDetails | data_quality_validator.py:21-27 | two results have the same record if and only if they agree on name, passed, failures and total; replacing the details leaves the record unchanged |
| Rules.EmptyTablePasses | data_quality_validator.py:40-44 | a zero-row table gives `total = 0`, `failures = 0`, `passed` and no detail rows |
| Rules.DetailsAreFailingRows | data_quality_validator.py:41-43 | row i contributes to the details if and only if its mask entry is false |
| Rules.PassingPlusFailuresIsTotal | data_quality_validator.py:40-42 | passing rows plus failures add up to `total` |
| Rules.InRangeNameIgnoresInclusive | data_quality_validator.py:79 | the inclusive and exclusive range rules on the same column and bounds have the same name |
| Rules.NotNullNameDeterminesColumns | data_quality_validator.py:71 | the text between `not_null(` and `)`, split at commas, gives back the column list when it is non-empty and comma-free |
| Validation.NewValidatorStartsEmpty | data_quality_validator.py:48-49 | with no rules given, validation yields an empty list and an empty summary; a given list is kept |
| Validation.AddRule | data_quality_validator.py:51-52 | adding a rule grows the list by one, leaves the earlier rules unchanged, and puts the new rule last |
| Validation.Collect | data_quality_validator.py:54-59 | collecting outcomes that all succeed gives one result per outcome |
| Validation.CollectSucceeds | data_quality_validator.py:54-59 | collecting succeeds if and only if every outcome succeeds, and then result i is outcome i's value |
| Validation.CollectAllSucceed | data_quality_validator.py:54-59 | outcomes that are all successes are collected into exactly their values |
| Validation.CollectFirstFailure | data_quality_validator.py:56-57 | the first failing outcome's error is the collected error |
| Validation.CollectConcatFirstFails | data_quality_validator.py:56-57 | when the first part fails, appending more outcomes changes nothing |
| Validation.CollectConcatAfterSuccess | data_quality_validator.py:54-59 | after a part that succeeds, the error of the second part wins, or the results are concatenated |
| Validation.Outcomes | data_quality_validator.py:56-57 | one outcome per registered rule |
| Validation.OutcomeAt | data_quality_validator.py:56-57 | outcome i is the evaluation of rule i |
| Validation.OutcomesPointwise | data_quality_validator.py:56-57 | every outcome is the evaluation of the rule at the same index |
| Validation.EvaluateAll | data_quality_validator.py:54-59 | no rules give an empty list; it succeeds iff every rule evaluates, and then there is one result per rule with result i the evaluation of rule i, so duplicate rules and names are kept |
| Validation.FirstErrorWins | data_quality_validator.py:56-57 | when rule i is the first to raise, validation fails with that rule's error |
| Validation.AllSucceedGivesResults | data_quality_validator.py:54-59 | when every rule evaluates to its result, validation returns exactly those results in order |
| Validation.EvaluateRegistered | data_quality_validator.py:57 | evaluating the i-th registered rule gives the i-th outcome |
| Validation.Validate | data_quality_validator.py:54-59 | the loop returns what the reference definition `EvaluateAll` specifies: on success the results in registration order, otherwise the first raised error |
| Validation.EvaluateAllConcat | data_quality_validator.py:54-59 | validating `rules1 + rules2` fails with rules1's error if rules1 fails, otherwise with rules2's error, and otherwise concatenates the two result lists |
| Validation.AddRuleEvaluatesLast | data_quality_validator.py:51-59 | after adding a rule, validation gives the old results followed by the new rule's result, or the first error |
| Validation.Summary | data_quality_validator.py:61-63 | one record per result, in the same order, each copying name, passed, failures and total |
| Validation.SummaryConcat | data_quality_validator.py:63 | the summary of concatenated result lists is the concatenation of their summaries |
| Validation.SummaryOfValidation | data_quality_validator.py:54-63 | after a successful validation the summary has one record per rule, with the rule's name, `total` equal to the row count, `0 <= failures <= total`, and `passed` iff no failures |
| Validation.EmptyTableAllPass | data_quality_validator.py:40-59 | on a zero-row table every result of a successful validation passes with no failures |
| Demo.SampleWellFormed | data_quality_validator.py:96-100 | the example table's rows all have exactly its three columns |
| Demo.SampleUniqueMask | data_quality_validator.py:84 | on ids 1, 2, 2, 4 the uniqueness mask is true, false, false, true |
| Demo.SampleUnique | data_quality_validator.py:82-85 | `unique("customer_id")` on the example fails the two rows with id 2: failures 2 of 4 |
| Demo.SampleNotNullMask | data_quality_validator.py:70 | only the row with a null email fails the not-null mask on customer_id and email |
| Demo.SampleNotNull | data_quality_validator.py:68-71 | `not_null(["customer_id", "email"])` is named `not_null(customer_id,email)` and fails only the fourth row |
| Demo.SampleInRangeMask | data_quality_validator.py:76-77 | ages 25, 17, 130, 40 against 18..120 give the mask true, false, false, true |
| Demo.SampleInRange | data_quality_validator.py:74-79 | `in_range("age", 18, 120)` is named `in_range(age,18,120)` and fails the rows aged 17 and 130: failures 2 of 4 |
| Demo.SampleRegexMask | data_quality_validator.py:90 | a matcher accepting the two addresses and rejecting "bad_email" and "None" gives the mask true, false, true, false |
| Demo.SampleRegex | data_quality_validator.py:88-91 | with such a matcher the regex rule fails the second and fourth rows |
| Demo.SampleValidation | data_quality_validator.py:102-110 | the example validator's four rules give, in registration order, not-null failing 1 of 4, unique 2 of 4, regex 2 of 4 and range 2 of 4, and the summary is those four records |
| Demo.SampleMissingColumn | data_quality_validator.py:54-59 | a rule on an absent column makes validation fail with `KeyError`, even after an earlier rule succeeded |

## Left out

- pandas itself (`DataFrame`, `.loc`, `.copy()`, dtypes) is replaced by plain sequences and maps. The `ValueError` for a mask that is not a boolean Series (data_quality_validator.py:38-39) cannot arise, because a mask is a `seq<bool>`.
- `evaluate` never checks a mask's length itself. A mask a directly built rule returns must have one entry per row: this is the `MaskFits` precondition of `Rules.Evaluate`. No length error is modelled; what pandas does with a wrong length is described at the end of this section.
- Any exception a directly built rule's function raises is modelled as `Raised(message)`. Its message text and exception class are not modelled.
- Cell values are integers and texts only. Floats, NaN and booleans are left out, and so is float rendering of `in_range` bounds in the rule name (for example `18.0`). Bounds are integers rendered as Python's `str(int)` renders them.
- Regex semantics are an external library call. `matches_regex` takes an arbitrary `Matcher` function of the pattern and the rendered cell, so no property depends on what the pattern means.
- Masks.UniqueMask: its contract gives only the length; the pass-iff-unique property is stated by `Masks.UniqueIffNoOtherRow`.
- Validation.Collect: its contract gives only the length of a successful result; the element-wise content is stated by `Validation.CollectSucceeds`.
- Masks.Render: renders cells as pandas 2.x does in a column of object dtype, such as the example's email column there. An integer column holding a null is stored as float64, where `astype(str)` gives "nan" for the null and "1.0" for 1; that rendering is not modelled. The code does not pin a pandas version. From pandas 3.0 a text column has the `str` dtype by default, `astype(str)` keeps a null missing rather than writing "None", and that rendering is not modelled either.
- Masks.NullsMatchAsNoneText: holds for a column of object dtype under pandas 2.x only. In a float64 column a null renders as "nan". Under pandas 3.0's default `str` dtype a null stays missing, and `str.match(pattern, na=False)` fails it whatever the pattern; with the pattern `^N` the model passes the example's null-email row, where pandas 3.0 fails it.
- The `__main__` block (data_quality_validator.py:94-114) prints; the printing is left out. Its data and rules are worked out in the `Demo` module, including the whole validator and its summary (`Demo.SampleValidation`). The regex rule is stated for any matcher that agrees with the pattern on the four email cells.
- `rules or []` in the constructor aliases a caller's non-empty list, so later `add_rule` calls also change the caller's list. Values are immutable here, so that sharing is not modelled.
- `summary` of an empty list is an empty `DataFrame`, which in pandas has no columns at all. The model returns an empty sequence of records.
- Rule descriptions are modelled as the factories' constant texts (`Rule.Description`). Nothing is proved about them.
- The code evaluates rules strictly in sequence; concurrency is not modelled.

How errors behave in the code, and so in the model:

- A missing column's `KeyError` propagates unwrapped, and validation stops at the first rule that raises.
- `in_range` on a text cell raises `TypeError` (modelled as `Failure(TypeError(column))`); the row is not counted as failing.
- `matches_regex` renders each cell with `astype(str)` before matching. Under pandas 2.x, in a column of object dtype, a null becomes the text "None", so a null fails only when the matcher rejects "None"; this is what the model does. Under pandas 3.0 the example's email column has the `str` dtype, a null stays missing, and `na=False` fails every null. The example's own pattern rejects "None", so its outcome is the same under both versions.
- A mask shorter than the table makes `df.loc[failures_mask]` (data_quality_validator.py:43) raise pandas' `IndexingError`, because a boolean Series indexer must align with the frame's index. A longer mask raises nothing, but line 42 also counts its extra `false` entries, so `failures` can exceed `total` and differ from the number of detail rows. The `MaskFits` precondition excludes both cases.

=== FILE: base.dfy ===
/** Failure-compatible wrappers shared by the model: an optional value (a
    nullable table cell) and the outcome of an operation that may raise. */
module Base {

  /** A value that may be absent; `None` is a null table cell. */
  datatype Option<+T> = None | Some(value: T)

  /** The outcome of an operation that either returns a value or raises an error. */
  datatype Result<+R, +E> = Success(value: R) | Failure(error: E) {

    predicate IsFailure() {
      Failure?
    }

    function PropagateFailure<U>(): Result<U, E>
      requires Failure?
    {
      Failure(error)
    }

    function Extract(): R
      requires Success?
    {
      value
    }
  }
}

=== FILE: demo.dfy ===
/** The sample data set of the module's usage example, with the outcome of
    each built-in rule on it and of the whole example validator.

    The facts are `SampleWellFormed`, the `Sample...Mask` lemmas, `SampleUnique`,
    `SampleNotNull`, `SampleInRange`, `SampleRegex`, `SampleValidation` and
    `SampleMissingColumn`. The other lemmas (`FourRows`, `SampleCells`,
    `EvaluateFour`, `SampleResult`, `SampleNotNullName`, `BoundNames`,
    `EvaluateAllFour`, `SummaryFour`, `AllFitFour`, `SeqFour`,
    `SampleOutcomes`) are helpers that split each concrete evaluation into
    small steps, so that no single proof has to unfold a whole evaluation of
    the concrete table at once. */
module Demo {
  import opened Base
  import opened Tables
  import opened Masks
  import opened Rules
  import opened Validation

  function Customer(id: int, email: Option<string>, age: int): Row {
    map["customer_id" := Some(Num(id)),
        "email" := (match email case Some(e) => Some(Text(e)) case None => None),
        "age" := Some(Num(age))]
  }

  const Columns: seq<string> := ["customer_id", "email", "age"]

  const Row0: Row := Customer(1, Some("a@example.com"), 25)
  const Row1: Row := Customer(2, Some("bad_email"), 17)
  const Row2: Row := Customer(2, Some("b@example.com"), 130)
  const Row3: Row := Customer(4, None, 40)

  const Sample: Table := Table(Columns, [Row0, Row1, Row2, Row3])

  function Keep<T>(x: T, fails: bool): seq<T> {
    if fails then [x] else []
  }

  /** Selection and counting written out for a four-row table. */
  lemma FourRows<T>(a: T, b: T, c: T, d: T, m0: bool, m1: bool, m2: bool, m3: bool)
    ensures SelectFailing([a, b, c, d], [m0, m1, m2, m3]) == Keep(a, !m0) + Keep(b, !m1) + Keep(c, !m2) + Keep(d, !m3)
    ensures CountFalse([m0, m1, m2, m3]) ==
            (if m0 then 0 else 1) + (if m1 then 0 else 1) + (if m2 then 0 else 1) + (if m3 then 0 else 1)
  {
    assert [a, b, c, d][..3] == [a, b, c] && [m0, m1, m2, m3][..3] == [m0, m1, m2];
    assert [a, b, c][..2] == [a, b] && [m0, m1, m2][..2] == [m0, m1];
    assert [a, b][..1] == [a] && [m0, m1][..1] == [m0];
    assert [a][..0] == [] && [m0][..0] == [];
    assert SelectFailing([a], [m0]) == Keep(a, !m0);
    assert SelectFailing([a, b], [m0, m1]) == Keep(a, !m0) + Keep(b, !m1);
    assert SelectFailing([a, b, c], [m0, m1, m2]) == Keep(a, !m0) + Keep(b, !m1) + Keep(c, !m2);
    assert CountFalse([m0]) == (if m0 then 0 else 1);
    assert CountFalse([m0, m1]) == (if m0 then 0 else 1) + (if m1 then 0 else 1);
    assert CountFalse([m0, m1, m2]) == (if m0 then 0 else 1) + (if m1 then 0 else 1) + (if m2 then 0 else 1);
  }

  lemma SampleCells()
    ensures Get(Row0, "customer_id") == Some(Num(1)) && Get(Row1, "customer_id") == Some(Num(2))
    ensures Get(Row2, "customer_id") == Some(Num(2)) && Get(Row3, "customer_id") == Some(Num(4))
    ensures Get(Row0, "email") == Some(Text("a@example.com")) && Get(Row1, "email") == Some(Text("bad_email"))
    ensures Get(Row2, "email") == Some(Text("b@example.com")) && Get(Row3, "email") == None
    ensures Get(Row0, "age") == Some(Num(25)) && Get(Row1, "age") == Some(Num(17))
    ensures Get(Row2, "age") == Some(Num(130)) && Get(Row3, "age") == Some(Num(40))
  {
  }

  lemma SampleWellFormed()
    ensures WellFormed(Sample)
  {
  }

  /** Evaluation of a rule on a four-row table once its mask is known. */
  lemma EvaluateFour(rule: Rule, t: Table, name: string, m0: bool, m1: bool, m2: bool, m3: bool)
    requires |t.rows| == 4 && MaskFits(rule, t) && rule.Name() == name
    requires MaskOf(rule, t) == Success([m0, m1, m2, m3])
    ensures Evaluate(rule, t) ==
            Success(RuleResult(name, m0 && m1 && m2 && m3,
                               (if m0 then 0 else 1) + (if m1 then 0 else 1) + (if m2 then 0 else 1) + (if m3 then 0 else 1),
                               4,
                               Table(t.columns, Keep(t.rows[0], !m0) + Keep(t.rows[1], !m1) + Keep(t.rows[2], !m2) + Keep(t.rows[3], !m3))))
  {
    assert t.rows == [t.rows[0], t.rows[1], t.rows[2], t.rows[3]];
    FourRows(t.rows[0], t.rows[1], t.rows[2], t.rows[3], m0, m1, m2, m3);
  }

  lemma SampleUniqueMask()
    ensures UniqueMask(Sample, "customer_id") == Success([true, false, false, true])
  {
    SampleCells();
    var vals := Column(Sample, "customer_id");
    assert vals == [Some(Num(1)), Some(Num(2)), Some(Num(2)), Some(Num(4))];
    assert multiset(vals)[Some(Num(1))] == 1;
    assert multiset(vals)[Some(Num(2))] == 2;
    assert multiset(vals)[Some(Num(4))] == 1;
    var m := UniqueMask(Sample, "customer_id").value;
    assert m[0] && !m[1] && !m[2] && m[3];
    assert m == [true, false, false, true];
  }

  /** Evaluation of a rule on the sample once its mask, its name and its
      failing rows are known. */
  lemma SampleResult(rule: Rule, name: string, m0: bool, m1: bool, m2: bool, m3: bool, failing: seq<Row>)
    requires MaskFits(rule, Sample) && rule.Name() == name
    requires MaskOf(rule, Sample) == Success([m0, m1, m2, m3])
    requires Keep(Row0, !m0) + Keep(Row1, !m1) + Keep(Row2, !m2) + Keep(Row3, !m3) == failing
    ensures Evaluate(rule, Sample) ==
            Success(RuleResult(name, m0 && m1 && m2 && m3,
                               (if m0 then 0 else 1) + (if m1 then 0 else 1) + (if m2 then 0 else 1) + (if m3 then 0 else 1),
                               4, Table(Columns, failing)))
  {
    EvaluateFour(rule, Sample, name, m0, m1, m2, m3);
    assert Sample.rows == [Row0, Row1, Row2, Row3];
  }

  /** Both rows sharing id 2 fail the uniqueness rule. */
  lemma SampleUnique()
    ensures Evaluate(Unique("customer_id"), Sample) ==
            Success(RuleResult("unique(customer_id)", false, 2, 4, Table(Columns, [Row1, Row2])))
  {
    assert MaskOf(Unique("customer_id"), Sample) == Success([true, false, false, true]) by { SampleUniqueMask(); }
    SampleResult(Unique("customer_id"), "unique(customer_id)", true, false, false, true, [Row1, Row2]);
  }

  lemma SampleNotNullMask()
    ensures NotNullMask(Sample, ["customer_id", "email"]) == Success([true, true, true, false])
  {
    SampleCells();
    var cols := ["customer_id", "email"];
    assert NoNulls(Row0, cols) && NoNulls(Row1, cols) && NoNulls(Row2, cols);
    assert !NoNulls(Row3, cols) by {
      assert Get(Row3, cols[1]).None?;
    }
    var m := NotNullMask(Sample, cols).value;
    assert m[0] && m[1] && m[2] && !m[3];
    assert m == [true, true, true, false];
  }

  lemma SampleNotNullName()
    ensures NotNull(["customer_id", "email"]).Name() == "not_null(customer_id,email)"
  {
  }

  /** Only the row with a null email fails the not-null rule. */
  lemma SampleNotNull()
    ensures Evaluate(NotNull(["customer_id", "email"]), Sample) ==
            Success(RuleResult("not_null(customer_id,email)", false, 1, 4, Table(Columns, [Row3])))
  {
    assert MaskOf(NotNull(["customer_id", "email"]), Sample) == Success([true, true, true, false]) by { SampleNotNullMask(); }
    assert NotNull(["customer_id", "email"]).Name() == "not_null(customer_id,email)" by { SampleNotNullName(); }
    SampleResult(NotNull(["customer_id", "email"]), "not_null(customer_id,email)", true, true, true, false, [Row3]);
  }

  lemma SampleInRangeMask()
    ensures InRangeMask(Sample, "age", 18, 120, true) == Success([true, false, false, true])
  {
    SampleCells();
    var vals := Column(Sample, "age");
    assert vals == [Some(Num(25)), Some(Num(17)), Some(Num(130)), Some(Num(40))];
    assert !HasText(vals);
    var m := InRangeMask(Sample, "age", 18, 120, true).value;
    assert m[0] && !m[1] && !m[2] && m[3];
    assert m == [true, false, false, true];
  }

  lemma BoundNames()
    ensures Strings.IntToString(18) == "18" && Strings.IntToString(120) == "120"
  {
  }

  /** Ages 17 and 130 fall outside 18..120. */
  lemma SampleInRange()
    ensures Evaluate(InRange("age", 18, 120, true), Sample) ==
            Success(RuleResult("in_range(age,18,120)", false, 2, 4, Table(Columns, [Row1, Row2])))
  {
    assert MaskOf(InRange("age", 18, 120, true), Sample) == Success([true, false, false, true]) by { SampleInRangeMask(); }
    assert InRange("age", 18, 120, true).Name() == "in_range(age,18,120)" by { BoundNames(); }
    SampleResult(InRange("age", 18, 120, true), "in_range(age,18,120)", true, false, false, true, [Row1, Row2]);
  }

  lemma SampleRegexMask(pattern: string, matches: Matcher)
    requires matches(pattern, "a@example.com") && matches(pattern, "b@example.com")
    requires !matches(pattern, "bad_email") && !matches(pattern, "None")
    ensures RegexMask(Sample, "email", pattern, matches) == Success([true, false, true, false])
  {
    SampleCells();
    var m := RegexMask(Sample, "email", pattern, matches).value;
    assert Render(Get(Row3, "email")) == "None";
    assert m[0] && !m[1] && m[2] && !m[3];
    assert m == [true, false, true, false];
  }

  /** With a matcher that accepts the two well-formed addresses and rejects
      "bad_email" and "None", the second and fourth rows fail. */
  lemma SampleRegex(pattern: string, matches: Matcher)
    requires matches(pattern, "a@example.com") && matches(pattern, "b@example.com")
    requires !matches(pattern, "bad_email") && !matches(pattern, "None")
    ensures Evaluate(MatchesRegex("email", pattern, matches), Sample) ==
            Success(RuleResult("matches_regex(email)", false, 2, 4, Table(Columns, [Row1, Row3])))
  {
    assert MaskOf(MatchesRegex("email", pattern, matches), Sample) == Success([true, false, true, false]) by { SampleRegexMask(pattern, matches); }
    SampleResult(MatchesRegex("email", pattern, matches), "matches_regex(email)", true, false, true, false, [Row1, Row3]);
  }

  /** A rule on a column the table lacks raises `KeyError`, which stops the
      validation even when an earlier rule succeeded. */
  lemma SampleMissingColumn()
    ensures EvaluateAll([Unique("customer_id"), Unique("phone")], Sample) == Failure(KeyError("phone"))
  {
    FirstErrorWins([Unique("customer_id"), Unique("phone")], Sample, 1);
  }

  /** Four rules whose outcomes are all successes validate to those results, in order. */
  lemma EvaluateAllFour(rules: seq<Rule>, t: Table, r0: RuleResult, r1: RuleResult, r2: RuleResult, r3: RuleResult)
    requires AllFit(rules, t)
    requires Outcomes(rules, t) == [Success(r0), Success(r1), Success(r2), Success(r3)]
    ensures EvaluateAll(rules, t) == Success([r0, r1, r2, r3])
  {
    var outs := Outcomes(rules, t);
    assert Collect(outs) == Success([r0, r1, r2, r3]) by {
      CollectAllSucceed(outs, [r0, r1, r2, r3]);
    }
    assert EvaluateAll(rules, t) == Collect(outs);
  }

  /** The summary of four results is their four records. */
  lemma SummaryFour(a: RuleResult, b: RuleResult, c: RuleResult, d: RuleResult)
    ensures Summary([a, b, c, d]) == [ToDict(a), ToDict(b), ToDict(c), ToDict(d)]
  {
  }

  /** The rules of the usage example, in registration order. */
  function ExampleRules(pattern: string, matches: Matcher): seq<Rule> {
    [NotNull(["customer_id", "email"]), Unique("customer_id"),
     MatchesRegex("email", pattern, matches), InRange("age", 18, 120, true)]
  }

  const NotNullResult: RuleResult := RuleResult("not_null(customer_id,email)", false, 1, 4, Table(Columns, [Row3]))
  const UniqueResult: RuleResult := RuleResult("unique(customer_id)", false, 2, 4, Table(Columns, [Row1, Row2]))
  const RegexResult: RuleResult := RuleResult("matches_regex(email)", false, 2, 4, Table(Columns, [Row1, Row3]))
  const InRangeResult: RuleResult := RuleResult("in_range(age,18,120)", false, 2, 4, Table(Columns, [Row1, Row2]))

  lemma AllFitFour(a: Rule, b: Rule, c: Rule, d: Rule, t: Table)
    requires MaskFits(a, t) && MaskFits(b, t) && MaskFits(c, t) && MaskFits(d, t)
    ensures AllFit([a, b, c, d], t)
  {
    var rules := [a, b, c, d];
    forall i | 0 <= i < 4
      ensures MaskFits(rules[i], t)
    {
      if i == 0 { assert rules[i] == a; }
      else if i == 1 { assert rules[i] == b; }
      else if i == 2 { assert rules[i] == c; }
      else { assert rules[i] == d; }
    }
  }

  /** A four-element sequence is the list of its elements. */
  lemma SeqFour<T>(xs: seq<T>, x0: T, x1: T, x2: T, x3: T)
    requires |xs| == 4 && xs[0] == x0 && xs[1] == x1 && xs[2] == x2 && xs[3] == x3
    ensures xs == [x0, x1, x2, x3]
  {
  }

  lemma SampleOutcomes(pattern: string, matches: Matcher)
    requires matches(pattern, "a@example.com") && matches(pattern, "b@example.com")
    requires !matches(pattern, "bad_email") && !matches(pattern, "None")
    ensures AllFit(ExampleRules(pattern, matches), Sample)
    ensures Outcomes(ExampleRules(pattern, matches), Sample) ==
            [Success(NotNullResult), Success(UniqueResult), Success(RegexResult), Success(InRangeResult)]
  {
    var rules := ExampleRules(pattern, matches);
    AllFitFour(rules[0], rules[1], rules[2], rules[3], Sample);
    assert rules == [rules[0], rules[1], rules[2], rules[3]];
    var outs := Outcomes(rules, Sample);
    assert outs[0] == Success(NotNullResult) by { OutcomeAt(rules, Sample, 0); SampleNotNull(); }
    assert outs[1] == Success(UniqueResult) by { OutcomeAt(rules, Sample, 1); SampleUnique(); }
    assert outs[2] == Success(RegexResult) by { OutcomeAt(rules, Sample, 2); SampleRegex(pattern, matches); }
    assert outs[3] == Success(InRangeResult) by { OutcomeAt(rules, Sample, 3); SampleInRange(); }
    SeqFour(outs, Success(NotNullResult), Success(UniqueResult), Success(RegexResult), Success(InRangeResult));
  }

  /** The usage example's validator: every rule fails on the sample, and the
      summary holds one record per rule in registration order. */
  lemma SampleValidation(pattern: string, matches: Matcher)
    requires matches(pattern, "a@example.com") && matches(pattern, "b@example.com")
    requires !matches(pattern, "bad_email") && !matches(pattern, "None")
    ensures AllFit(ExampleRules(pattern, matches), Sample)
    ensures EvaluateAll(ExampleRules(pattern, matches), Sample) ==
            Success([NotNullResult, UniqueResult, RegexResult, InRangeResult])
    ensures Summary(EvaluateAll(ExampleRules(pattern, matches), Sample).value) ==
            [Record("not_null(customer_id,email)", false, 1, 4),
             Record("unique(customer_id)", false, 2, 4),
             Record("matches_regex(email)", false, 2, 4),
             Record("in_range(age,18,120)", false, 2, 4)]
  {
    SampleOutcomes(pattern, matches);
    EvaluateAllFour(ExampleRules(pattern, matches), Sample, NotNullResult, UniqueResult, RegexResult, InRangeResult);
    SummaryFour(NotNullResult, UniqueResult, RegexResult, InRangeResult);
  }
}

=== FILE: masks.dfy ===
/** The row masks computed by the four built-in rule factories, and the
    errors pandas raises while computing them. A mask holds one boolean per
    row; `true` means the row satisfies the rule. */
module Masks {
  import opened Base
  import opened Tables
  import Strings

  /** `KeyError`: the rule reads a column the table does not have.
      `TypeError`: a range rule compares a text cell with a number.
      `Raised`: any other exception a directly built rule's function raises. */
  datatype Error = KeyError(column: string) | TypeError(column: string) | Raised(message: string)

  /** `re.match(pattern, text)` succeeds, for `Matcher(pattern, text)`. */
  type Matcher = (string, string) -> bool

  /** The first of `cols` the table lacks, if any. */
  function FirstMissing(t: Table, cols: seq<string>): (r: Option<string>)
    ensures r.None? <==> forall k :: 0 <= k < |cols| ==> cols[k] in t.columns
    ensures r.Some? ==> r.value in cols && r.value !in t.columns
  {
    if |cols| == 0 then None
    else if cols[0] !in t.columns then Some(cols[0])
    else FirstMissing(t, cols[1..])
  }

  // ---------------------------------------------------------------- not_null

  /** No listed column is null in `row`. */
  predicate NoNulls(row: Row, cols: seq<string>) {
    forall k :: 0 <= k < |cols| ==> Get(row, cols[k]).Some?
  }

  /** `df[cols].notnull().all(axis=1)`. */
  function NotNullMask(t: Table, cols: seq<string>): (r: Result<seq<bool>, Error>)
    ensures r.Failure? <==> exists k :: 0 <= k < |cols| && cols[k] !in t.columns
    ensures r.Failure? ==> r.error.KeyError? && r.error.column in cols && r.error.column !in t.columns
    ensures r.Success? ==> |r.value| == |t.rows|
    ensures r.Success? ==> forall i :: 0 <= i < |t.rows| ==>
              (r.value[i] <==> forall k :: 0 <= k < |cols| ==> Get(t.rows[i], cols[k]) != None)
  {
    match FirstMissing(t, cols)
    case Some(c) => Failure(KeyError(c))
    case None => Success(seq(|t.rows|, i requires 0 <= i < |t.rows| => NoNulls(t.rows[i], cols)))
  }

  /** With no columns listed, `all` over an empty row is true: every row passes. */
  lemma NotNullNoColumns(t: Table)
    ensures NotNullMask(t, []).Success?
    ensures forall i :: 0 <= i < |t.rows| ==> NotNullMask(t, []).value[i]
  {
  }

  /** Checking two column lists together is the row-wise conjunction of
      checking each of them. */
  lemma NotNullConcat(t: Table, cols1: seq<string>, cols2: seq<string>)
    requires NotNullMask(t, cols1).Success? && NotNullMask(t, cols2).Success?
    ensures NotNullMask(t, cols1 + cols2).Success?
    ensures forall i :: 0 <= i < |t.rows| ==>
              (NotNullMask(t, cols1 + cols2).value[i] <==>
               NotNullMask(t, cols1).value[i] && NotNullMask(t, cols2).value[i])
  {
    var both := cols1 + cols2;
    forall k | 0 <= k < |both|
      ensures both[k] in t.columns
    {
      if k >= |cols1| {
        assert both[k] == cols2[k - |cols1|];
      }
    }
    forall i | 0 <= i < |t.rows|
      ensures NotNullMask(t, both).value[i] <==>
              NotNullMask(t, cols1).value[i] && NotNullMask(t, cols2).value[i]
    {
      var row := t.rows[i];
      if NoNulls(row, cols1) && NoNulls(row, cols2) {
        forall k | 0 <= k < |both|
          ensures Get(row, both[k]) != None
        {
          if k >= |cols1| {
            assert both[k] == cols2[k - |cols1|];
          }
        }
      }
      if NoNulls(row, both) {
        forall k | 0 <= k < |cols1|
          ensures Get(row, cols1[k]) != None
        {
          assert both[k] == cols1[k];
        }
        forall k | 0 <= k < |cols2|
          ensures Get(row, cols2[k]) != None
        {
          assert both[|cols1| + k] == cols2[k];
        }
      }
    }
  }

  // ---------------------------------------------------------------- in_range

  /** The cell holds a number within the bounds: `lo <= x <= hi` when
      inclusive, `lo < x < hi` otherwise. Nulls are never within bounds. */
  predicate Within(cell: Option<Value>, lo: int, hi: int, inclusive: bool) {
    match cell
    case Some(Num(x)) => if inclusive then lo <= x && x <= hi else lo < x && x < hi
    case _ => false
  }

  /** The column holds some text cell, which pandas refuses to compare with a number. */
  predicate HasText(vals: seq<Option<Value>>) {
    exists i :: 0 <= i < |vals| && vals[i].Some? && vals[i].value.Text?
  }

  /** `df[c].between(lo, hi, inclusive="both")` when inclusive, else
      `(df[c] > lo) & (df[c] < hi)`. */
  function InRangeMask(t: Table, c: string, lo: int, hi: int, inclusive: bool): (r: Result<seq<bool>, Error>)
    ensures r.Failure? <==> c !in t.columns || HasText(Column(t, c))
    ensures r.Failure? ==> r.error == (if c !in t.columns then KeyError(c) else TypeError(c))
    ensures r.Success? ==> |r.value| == |t.rows|
    ensures r.Success? ==> forall i :: 0 <= i < |t.rows| ==>
              (r.value[i] <==>
                 Get(t.rows[i], c).Some? &&
                 (if inclusive then lo <= Get(t.rows[i], c).value.n <= hi
                  else lo < Get(t.rows[i], c).value.n < hi))
  {
    if c !in t.columns then Failure(KeyError(c))
    else
      var vals := Column(t, c);
      if HasText(vals) then Failure(TypeError(c))
      else Success(seq(|vals|, i requires 0 <= i < |vals| => Within(vals[i], lo, hi, inclusive)))
  }

  /** A row within the open range is within the closed range, and the two
      masks differ only on rows holding exactly one of the bounds. */
  lemma ExclusiveWithinInclusive(t: Table, c: string, lo: int, hi: int)
    requires InRangeMask(t, c, lo, hi, true).Success?
    ensures InRangeMask(t, c, lo, hi, false).Success?
    ensures forall i :: 0 <= i < |t.rows| && InRangeMask(t, c, lo, hi, false).value[i] ==>
              InRangeMask(t, c, lo, hi, true).value[i]
    ensures forall i :: (0 <= i < |t.rows| && InRangeMask(t, c, lo, hi, true).value[i] &&
                         !InRangeMask(t, c, lo, hi, false).value[i]) ==>
              Get(t.rows[i], c) in {Some(Num(lo)), Some(Num(hi))}
  {
  }

  /** Bounds in the wrong order (`lo > hi`) fail every row, inclusive or not. */
  lemma ReversedBoundsFailAll(t: Table, c: string, lo: int, hi: int, inclusive: bool)
    requires lo > hi
    requires InRangeMask(t, c, lo, hi, inclusive).Success?
    ensures forall i :: 0 <= i < |t.rows| ==> !InRangeMask(t, c, lo, hi, inclusive).value[i]
  {
  }

  // ---------------------------------------------------------------- unique

  /** `~df[c].duplicated(keep=False)`: a row passes when its value occurs
      exactly once in the column. Nulls compare equal to each other. */
  function UniqueMask(t: Table, c: string): (r: Result<seq<bool>, Error>)
    ensures r.Failure? <==> c !in t.columns
    ensures r.Failure? ==> r.error == KeyError(c)
    ensures r.Success? ==> |r.value| == |t.rows|
  {
    if c !in t.columns then Failure(KeyError(c))
    else
      var vals := Column(t, c);
      Success(seq(|vals|, i requires 0 <= i < |vals| => multiset(vals)[vals[i]] == 1))
  }

  /** Element `i` occurs exactly once in `vals` iff no other position holds the same value. */
  lemma OccursOnceIffNoOther<T>(vals: seq<T>, i: nat)
    requires i < |vals|
    ensures multiset(vals)[vals[i]] == 1 <==> forall j :: 0 <= j < |vals| && j != i ==> vals[j] != vals[i]
  {
    var v := vals[i];
    var before, after := vals[..i], vals[i + 1..];
    assert vals == before + [v] + after;
    assert multiset(vals)[v] == multiset(before)[v] + 1 + multiset(after)[v];
    if multiset(vals)[v] == 1 {
      forall j | 0 <= j < |vals| && j != i
        ensures vals[j] != v
      {
        if j < i {
          assert before[j] == vals[j];
        } else {
          assert after[j - i - 1] == vals[j];
        }
      }
    }
    if forall j :: 0 <= j < |vals| && j != i ==> vals[j] != v {
      assert forall j :: 0 <= j < |before| ==> before[j] == vals[j];
      assert forall j :: 0 <= j < |after| ==> after[j] == vals[i + 1 + j];
      assert v !in before && v !in after;
    }
  }

  /** Global uniqueness: a row passes exactly when no other row holds the same
      value in the column, so every occurrence of a repeated value fails. */
  lemma UniqueIffNoOtherRow(t: Table, c: string, i: nat)
    requires c in t.columns && i < |t.rows|
    ensures UniqueMask(t, c).value[i] <==>
              forall j :: 0 <= j < |t.rows| && j != i ==> Get(t.rows[j], c) != Get(t.rows[i], c)
  {
    OccursOnceIffNoOther(Column(t, c), i);
  }

  /** A uniqueness rule never reports exactly one failure: a repeated value
      fails on at least two rows. */
  lemma UniqueNeverOneFailure(t: Table, c: string)
    requires c in t.columns
    ensures CountFalse(UniqueMask(t, c).value) != 1
  {
    var m := UniqueMask(t, c).value;
    if CountFalse(m) == 1 {
      var idx := FalsePositions(m);
      var i := idx[0];
      UniqueIffNoOtherRow(t, c, i);
      var j :| 0 <= j < |t.rows| && j != i && Get(t.rows[j], c) == Get(t.rows[i], c);
      UniqueIffNoOtherRow(t, c, j);
      FalsePositionsComplete(m, j);
      assert false;
    }
  }

  // ---------------------------------------------------------------- matches_regex

  /** `astype(str)` of a cell in a column of object dtype, as pandas 2.x
      does it: a null becomes the text "None", a number its decimal
      rendering, text stays as it is. */
  function Render(cell: Option<Value>): (s: string)
    ensures cell.None? ==> s == "None"
    ensures cell.Some? && cell.value.Num? ==> Strings.IsIntText(s) && Strings.ParseInt(s) == cell.value.n
    ensures cell.Some? && cell.value.Text? ==> s == cell.value.s
  {
    match cell
    case None => "None"
    case Some(Num(x)) => Strings.ParseIntToString(x); Strings.IntToString(x)
    case Some(Text(s)) => s
  }

  /** `df[c].astype(str).str.match(pattern, na=False)`. */
  function RegexMask(t: Table, c: string, pattern: string, matches: Matcher): (r: Result<seq<bool>, Error>)
    ensures r.Failure? <==> c !in t.columns
    ensures r.Failure? ==> r.error == KeyError(c)
    ensures r.Success? ==> |r.value| == |t.rows|
    ensures r.Success? ==> forall i :: 0 <= i < |t.rows| ==>
              (r.value[i] <==> matches(pattern, Render(Get(t.rows[i], c))))
  {
    if c !in t.columns then Failure(KeyError(c))
    else
      var vals := Column(t, c);
      Success(seq(|vals|, i requires 0 <= i < |vals| => matches(pattern, Render(vals[i]))))
  }

  /** Null cells are matched as the text "None": they fail exactly when the
      pattern rejects that text, and all of them alike. */
  lemma NullsMatchAsNoneText(t: Table, c: string, pattern: string, matches: Matcher, i: nat)
    requires c in t.columns && i < |t.rows| && Get(t.rows[i], c).None?
    ensures RegexMask(t, c, pattern, matches).value[i] == matches(pattern, "None")
  {
  }
}

=== FILE: rules.dfy ===
/** A data-quality rule (`DataQualityRule`), its evaluation against a table
    (`evaluate`) and the result record (`RuleResult`, `to_dict`). */
module Rules {
  import opened Base
  import opened Tables
  import opened Masks
  import Strings

  /** One variant per built-in factory, plus a rule built directly from a
      name, a description and a mask-producing function. */
  datatype Rule =
    | NotNull(columns: seq<string>)
    | InRange(column: string, minValue: int, maxValue: int, inclusive: bool)
    | Unique(column: string)
    | MatchesRegex(column: string, pattern: string, matches: Matcher)
    | Custom(name: string, description: string, check: Table -> Result<seq<bool>, Error>)
  {
    /** The rule's name, as each factory formats it. */
    function Name(): string {
      match this
      case NotNull(cols) => "not_null(" + Strings.Join(cols, ',') + ")"
      case InRange(c, lo, hi, _) => "in_range(" + c + "," + Strings.IntToString(lo) + "," + Strings.IntToString(hi) + ")"
      case Unique(c) => "unique(" + c + ")"
      case MatchesRegex(c, _, _) => "matches_regex(" + c + ")"
      case Custom(n, _, _) => n
    }

    /** The rule's description, as each factory sets it. */
    function Description(): string {
      match this
      case NotNull(_) => "No NULLs in required columns"
      case InRange(_, _, _, _) => "Numeric range validation"
      case Unique(_) => "Uniqueness constraint"
      case MatchesRegex(_, _, _) => "Regex pattern match"
      case Custom(_, d, _) => d
    }
  }

  /** The outcome of one rule on one table; `details` holds the failing rows. */
  datatype RuleResult = RuleResult(name: string, passed: bool, failures: int, total: int, details: Table)

  /** What `to_dict` keeps of a result. */
  datatype Record = Record(name: string, passed: bool, failures: int, total: int)

  /** A mask a directly built rule returns must hold one entry per row;
      `evaluate` relies on this without checking it. */
  predicate MaskFits(rule: Rule, t: Table) {
    rule.Custom? && rule.check(t).Success? ==> |rule.check(t).value| == |t.rows|
  }

  /** The mask `rule.func(df)` returns, or the error it raises. */
  function MaskOf(rule: Rule, t: Table): (r: Result<seq<bool>, Error>)
    requires MaskFits(rule, t)
    ensures r.Success? ==> |r.value| == |t.rows|
    ensures rule.Custom? ==> r == rule.check(t)
  {
    match rule
    case NotNull(cols) => NotNullMask(t, cols)
    case InRange(c, lo, hi, inclusive) => InRangeMask(t, c, lo, hi, inclusive)
    case Unique(c) => UniqueMask(t, c)
    case MatchesRegex(c, pattern, matches) => RegexMask(t, c, pattern, matches)
    case Custom(_, _, f) => f(t)
  }

  /** The invariants every result satisfies. */
  ghost predicate Consistent(r: RuleResult) {
    && 0 <= r.failures <= r.total
    && (r.passed <==> r.failures == 0)
    && |r.details.rows| == r.failures
  }

  /** `r` reports mask `mask` of rule `name` on table `t`: the total is the
      row count, the failures are the `false` entries, the rule passed iff
      every row passed, and the details are the failing rows of `t`, in
      order, under the same columns. */
  ghost predicate Reports(r: RuleResult, name: string, mask: seq<bool>, t: Table)
    requires |mask| == |t.rows|
  {
    && r.name == name
    && r.total == |t.rows|
    && r.failures == multiset(mask)[false]
    && (r.passed <==> forall i :: 0 <= i < |mask| ==> mask[i])
    && r.details.columns == t.columns
    && var idx := FalsePositions(mask);
       r.details.rows == seq(|idx|, k requires 0 <= k < |idx| => t.rows[idx[k]])
  }

  /** `DataQualityRule.evaluate`: an error raised while computing the mask
      propagates; otherwise the result carries the rule's name, the row
      count and the failures (what it reports in full is `EvaluateReports`). */
  function Evaluate(rule: Rule, t: Table): (res: Result<RuleResult, Error>)
    requires MaskFits(rule, t)
    ensures res.Failure? <==> MaskOf(rule, t).Failure?
    ensures res.Failure? ==> res.error == MaskOf(rule, t).error
    ensures res.Success? ==> res.value.name == rule.Name() && res.value.total == |t.rows|
    ensures res.Success? ==> Consistent(res.value)
  {
    var mask :- MaskOf(rule, t);
    var failures := CountFalse(mask);
    Success(RuleResult(rule.Name(), failures == 0, failures, |t.rows|, Table(t.columns, SelectFailing(t.rows, mask))))
  }

  /** A successful evaluation reports its mask: the failures are the
      `false` entries, the rule passed iff every row passed, and the details
      are the failing rows in their original order under the table's columns. */
  lemma EvaluateReports(rule: Rule, t: Table)
    requires MaskFits(rule, t) && MaskOf(rule, t).Success?
    ensures Evaluate(rule, t).Success?
    ensures Reports(Evaluate(rule, t).value, rule.Name(), MaskOf(rule, t).value, t)
  {
    CountFalseIsMultiplicity(MaskOf(rule, t).value);
  }

  /** `RuleResult.to_dict`. */
  function ToDict(r: RuleResult): Record {
    Record(r.name, r.passed, r.failures, r.total)
  }

  /** An exception raised by a directly built rule's function passes
      through `evaluate` unchanged, and no result is produced. */
  lemma CustomErrorPropagates(name: string, description: string, f: Table -> Result<seq<bool>, Error>, t: Table)
    requires f(t).Failure?
    ensures Evaluate(Custom(name, description, f), t) == Failure(f(t).error)
  {
  }

  /** `to_dict` drops exactly the details: two results have the same record
      iff they agree on name, passed, failures and total. */
  lemma ToDictForgetsDetails(r1: RuleResult, r2: RuleResult)
    ensures ToDict(r1) == ToDict(r2) <==>
              r1.name == r2.name && r1.passed == r2.passed && r1.failures == r2.failures && r1.total == r2.total
    ensures ToDict(r1) == ToDict(r1.(details := r2.details))
  {
  }

  /** On a table without rows every rule that can be evaluated passes with
      no failures out of zero rows and no details. */
  lemma EmptyTablePasses(rule: Rule, t: Table)
    requires |t.rows| == 0 && MaskFits(rule, t)
    requires Evaluate(rule, t).Success?
    ensures Evaluate(rule, t).value.total == 0
    ensures Evaluate(rule, t).value.failures == 0
    ensures Evaluate(rule, t).value.passed
    ensures Evaluate(rule, t).value.details.rows == []
  {
  }

  /** A failing row appears in the details exactly when its mask entry is
      `false`, and each detail row is a row of the table. */
  lemma DetailsAreFailingRows(rule: Rule, t: Table, i: nat)
    requires MaskFits(rule, t) && Evaluate(rule, t).Success? && i < |t.rows|
    ensures !MaskOf(rule, t).value[i] <==>
              exists k :: 0 <= k < |Evaluate(rule, t).value.details.rows| && FalsePositions(MaskOf(rule, t).value)[k] == i
  {
    SelectedIffFailing(t.rows, MaskOf(rule, t).value, i);
  }

  /** The number of passing rows plus the number of failures is the total. */
  lemma PassingPlusFailuresIsTotal(rule: Rule, t: Table)
    requires MaskFits(rule, t) && Evaluate(rule, t).Success?
    ensures multiset(MaskOf(rule, t).value)[true] + Evaluate(rule, t).value.failures == Evaluate(rule, t).value.total
  {
    var mask := MaskOf(rule, t).value;
    FailingPlusPassing(mask);
    CountFalseIsMultiplicity(mask);
  }

  /** The range rule's name records the column and bounds but not
      inclusiveness: the open and closed variants share a name. */
  lemma InRangeNameIgnoresInclusive(c: string, lo: int, hi: int)
    ensures InRange(c, lo, hi, true).Name() == InRange(c, lo, hi, false).Name()
  {
  }

  /** The not-null rule's name determines its column list, when the list is
      non-empty and no column name contains a comma. */
  lemma NotNullNameDeterminesColumns(cols: seq<string>)
    requires |cols| > 0 && forall k :: 0 <= k < |cols| ==> ',' !in cols[k]
    ensures var n := NotNull(cols).Name();
            Strings.Split(n[|"not_null("|..|n| - 1], ',') == cols
  {
    var n := NotNull(cols).Name();
    assert n[|"not_null("|..|n| - 1] == Strings.Join(cols, ',');
    Strings.SplitJoin(cols, ',');
  }
}

=== FILE: strings.dfy ===
/** Text helpers the rule factories use to build rule names: decimal
    rendering of integers (Python's `str(int)`) and `sep.join(parts)`.
    Each comes with its inverse and a round-trip lemma. */
module Strings {

  predicate IsDigit(c: char) {
    '0' <= c <= '9'
  }

  function DigitChar(d: nat): (c: char)
    requires d < 10
    ensures IsDigit(c)
  {
    (48 + d) as char
  }

  function DigitValue(c: char): (d: nat)
    requires IsDigit(c)
    ensures d < 10
  {
    c as int - 48
  }

  /** Decimal digits of `n`, most significant first, without leading zeros. */
  function NatToString(n: nat): (s: string)
    ensures |s| > 0
    ensures forall i :: 0 <= i < |s| ==> IsDigit(s[i])
    ensures |s| > 1 ==> s[0] != '0'
    decreases n
  {
    if n < 10 then [DigitChar(n)] else NatToString(n / 10) + [DigitChar(n % 10)]
  }

  /** The number a string of decimal digits denotes. */
  function ParseNat(s: string): nat
    requires forall i :: 0 <= i < |s| ==> IsDigit(s[i])
  {
    if |s| == 0 then 0 else 10 * ParseNat(s[..|s| - 1]) + DigitValue(s[|s| - 1])
  }

  /** An optional minus sign followed by at least one decimal digit. */
  predicate IsIntText(s: string) {
    if |s| > 0 && s[0] == '-' then |s| > 1 && forall i :: 1 <= i < |s| ==> IsDigit(s[i])
    else |s| > 0 && forall i :: 0 <= i < |s| ==> IsDigit(s[i])
  }

  /** Python's `str(i)` for an integer: an optional minus sign followed by the digits of `|i|`. */
  function IntToString(i: int): (s: string)
    ensures IsIntText(s)
    ensures i < 0 <==> s[0] == '-'
  {
    if i < 0 then "-" + NatToString(-i) else NatToString(i)
  }

  function ParseInt(s: string): int
    requires IsIntText(s)
  {
    if |s| > 0 && s[0] == '-' then -(ParseNat(s[1..]) as int) else ParseNat(s)
  }

  lemma {:induction false} ParseNatToString(n: nat)
    ensures ParseNat(NatToString(n)) == n
    decreases n
  {
    if n >= 10 {
      var s := NatToString(n);
      assert s[..|s| - 1] == NatToString(n / 10);
      ParseNatToString(n / 10);
    }
  }

  /** Rendering an integer and reading it back gives the integer. */
  lemma ParseIntToString(i: int)
    ensures ParseInt(IntToString(i)) == i
  {
    if i < 0 {
      assert IntToString(i)[1..] == NatToString(-i);
      ParseNatToString(-i);
    } else {
      ParseNatToString(i);
    }
  }

  /** Rendering is injective: distinct integers get distinct names. */
  lemma IntToStringInjective(i: int, j: int)
    requires IntToString(i) == IntToString(j)
    ensures i == j
  {
    ParseIntToString(i);
    ParseIntToString(j);
  }

  /** Python's `sep.join(parts)`. */
  function Join(parts: seq<string>, sep: char): (s: string)
    ensures |parts| == 0 ==> s == ""
    decreases |parts|
  {
    if |parts| == 0 then ""
    else if |parts| == 1 then parts[0]
    else parts[0] + [sep] + Join(parts[1..], sep)
  }

  /** Position of the first `sep` in `s`. */
  function IndexOf(s: string, sep: char): (i: nat)
    requires sep in s
    ensures i < |s| && s[i] == sep
    ensures sep !in s[..i]
  {
    if s[0] == sep then 0 else 1 + IndexOf(s[1..], sep)
  }

  /** Python's `s.split(sep)`: the pieces between occurrences of `sep`. */
  function Split(s: string, sep: char): (parts: seq<string>)
    ensures |parts| > 0
    ensures forall k :: 0 <= k < |parts| ==> sep !in parts[k]
    decreases |s|
  {
    if sep !in s then [s]
    else
      var i := IndexOf(s, sep);
      [s[..i]] + Split(s[i + 1..], sep)
  }

  lemma SplitAfterPiece(piece: string, sep: char, rest: string)
    requires sep !in piece
    ensures Split(piece + [sep] + rest, sep) == [piece] + Split(rest, sep)
  {
    var s := piece + [sep] + rest;
    assert s[..|piece|] == piece;
    assert s[|piece|] == sep;
    var i := IndexOf(s, sep);
    assert i == |piece| by {
      assert forall j :: 0 <= j < |piece| ==> s[j] == piece[j];
      assert sep !in s[..i];
    }
    assert s[..i] == piece;
    assert s[i + 1..] == rest;
  }

  /** Splitting a join gives back the parts, provided there is at least one
      part and no part contains the separator. */
  lemma {:induction false} SplitJoin(parts: seq<string>, sep: char)
    requires |parts| > 0
    requires forall k :: 0 <= k < |parts| ==> sep !in parts[k]
    ensures Split(Join(parts, sep), sep) == parts
    decreases |parts|
  {
    if |parts| == 1 {
    } else {
      SplitAfterPiece(parts[0], sep, Join(parts[1..], sep));
      SplitJoin(parts[1..], sep);
      assert parts == [parts[0]] + parts[1..];
    }
  }
}

=== FILE: tables.dfy ===
/** The in-memory table a rule is evaluated against (a pandas DataFrame
    reduced to what the rules touch), and the two mask reductions
    `RuleResult` is built from: counting the failing rows and selecting
    them in their original order. */
module Tables {
  import opened Base

  /** A non-null cell: a number or a piece of text. */
  datatype Value = Num(n: int) | Text(s: string)

  /** A row maps column names to cells; `None` is a null cell. */
  type Row = map<string, Option<Value>>

  /** A table: its column schema, in order, and its rows, in order. */
  datatype Table = Table(columns: seq<string>, rows: seq<Row>)

  /** Every row has exactly the table's columns. */
  ghost predicate WellFormed(t: Table) {
    forall i :: 0 <= i < |t.rows| ==> t.rows[i].Keys == (set c | c in t.columns)
  }

  /** The cell of `row` in column `c`; a key the row lacks reads as null. */
  function Get(row: Row, c: string): Option<Value> {
    if c in row then row[c] else None
  }

  /** The values of column `c`, one per row (`df[c]`). */
  function Column(t: Table, c: string): (vals: seq<Option<Value>>)
    ensures |vals| == |t.rows|
    ensures forall i :: 0 <= i < |t.rows| ==> vals[i] == Get(t.rows[i], c)
  {
    seq(|t.rows|, i requires 0 <= i < |t.rows| => Get(t.rows[i], c))
  }

  /** Number of `false` entries of a mask (`(~mask).sum()`). */
  function CountFalse(mask: seq<bool>): (n: nat)
    ensures n <= |mask|
    ensures n == 0 <==> forall i :: 0 <= i < |mask| ==> mask[i]
  {
    if |mask| == 0 then 0
    else CountFalse(mask[..|mask| - 1]) + (if mask[|mask| - 1] then 0 else 1)
  }

  /** The positions of the `false` entries of a mask, in increasing order
      (that none is missed is `FalsePositionsComplete`). */
  function FalsePositions(mask: seq<bool>): (idx: seq<nat>)
    ensures |idx| == CountFalse(mask)
    ensures forall k :: 0 <= k < |idx| ==> idx[k] < |mask| && !mask[idx[k]]
    ensures forall k, l :: 0 <= k < l < |idx| ==> idx[k] < idx[l]
  {
    if |mask| == 0 then []
    else
      var n := |mask| - 1;
      FalsePositions(mask[..n]) + (if mask[n] then [] else [n])
  }

  /** The elements of `xs` whose mask entry is `false`, in their original
      order (`df.loc[~mask]`). */
  function SelectFailing<T>(xs: seq<T>, mask: seq<bool>): (d: seq<T>)
    requires |xs| == |mask|
    ensures |d| == CountFalse(mask)
    ensures forall k :: 0 <= k < |d| ==> d[k] == xs[FalsePositions(mask)[k]]
  {
    if |xs| == 0 then []
    else
      var n := |xs| - 1;
      SelectFailing(xs[..n], mask[..n]) + (if mask[n] then [] else [xs[n]])
  }

  /** The recursive count agrees with the multiplicity of `false` in the mask. */
  lemma {:induction false} CountFalseIsMultiplicity(mask: seq<bool>)
    ensures CountFalse(mask) == multiset(mask)[false]
  {
    if |mask| > 0 {
      var n := |mask| - 1;
      assert mask == mask[..n] + [mask[n]];
      CountFalseIsMultiplicity(mask[..n]);
    }
  }

  /** Failing and passing rows together make up the whole table. */
  lemma {:induction false} FailingPlusPassing(mask: seq<bool>)
    ensures CountFalse(mask) + multiset(mask)[true] == |mask|
  {
    if |mask| > 0 {
      var n := |mask| - 1;
      assert mask == mask[..n] + [mask[n]];
      FailingPlusPassing(mask[..n]);
    }
  }

  /** Every `false` entry of the mask is listed by `FalsePositions`. */
  lemma {:induction false} FalsePositionsComplete(mask: seq<bool>, i: nat)
    requires i < |mask| && !mask[i]
    ensures i in FalsePositions(mask)
  {
    var n := |mask| - 1;
    if i < n {
      assert mask[..n][i] == mask[i];
      FalsePositionsComplete(mask[..n], i);
    }
  }

  /** Row `i` is among the selected rows exactly when its mask entry is `false`. */
  lemma SelectedIffFailing<T>(xs: seq<T>, mask: seq<bool>, i: nat)
    requires |xs| == |mask| && i < |xs|
    ensures !mask[i] <==> exists k :: 0 <= k < |SelectFailing(xs, mask)| && FalsePositions(mask)[k] == i
  {
    var idx := FalsePositions(mask);
    if !mask[i] {
      FalsePositionsComplete(mask, i);
      var k :| 0 <= k < |idx| && idx[k] == i;
      assert 0 <= k < |SelectFailing(xs, mask)| && FalsePositions(mask)[k] == i;
    }
  }

  /** The failing-row table keeps the input's column schema, so it is well
      formed whenever the input is. */
  lemma SelectKeepsSchema(t: Table, mask: seq<bool>)
    requires |mask| == |t.rows| && WellFormed(t)
    ensures WellFormed(Table(t.columns, SelectFailing(t.rows, mask)))
  {
  }
}

=== FILE: validation.dfy ===
/** `DataQualityValidator`: an append-only list of rules, evaluated in
    registration order, and the summary of the results. */
module Validation {
  import opened Base
  import opened Tables
  import opened Masks
  import opened Rules

  datatype Validator = Validator(rules: seq<Rule>)

  /** The constructor: no rules given (or an empty list) starts empty. */
  function NewValidator(rules: Option<seq<Rule>>): Validator {
    match rules
    case None => Validator([])
    case Some(rs) => Validator(rs)
  }

  /** A validator built without rules validates any table to an empty list
      of results, whose summary is empty too; one built from a list keeps it. */
  lemma NewValidatorStartsEmpty(rules: Option<seq<Rule>>, t: Table)
    ensures rules.None? ==> EvaluateAll(NewValidator(rules).rules, t) == Success([])
    ensures rules.None? ==> Summary(EvaluateAll(NewValidator(rules).rules, t).value) == []
    ensures rules.Some? ==> NewValidator(rules).rules == rules.value
  {
  }

  /** `add_rule`: the new rule goes last and the earlier rules stay as they were. */
  function AddRule(v: Validator, rule: Rule): (v': Validator)
    ensures |v'.rules| == |v.rules| + 1
    ensures v'.rules[..|v.rules|] == v.rules
    ensures v'.rules[|v.rules|] == rule
  {
    Validator(v.rules + [rule])
  }

  predicate AllFit(rules: seq<Rule>, t: Table) {
    forall i :: 0 <= i < |rules| ==> MaskFits(rules[i], t)
  }

  /** Fail-fast sequencing of outcomes taken front to back: the first
      failure is the overall outcome; otherwise all the values, in order. */
  function Collect<R, E>(outs: seq<Result<R, E>>): (res: Result<seq<R>, E>)
    ensures res.Success? ==> |res.value| == |outs|
  {
    if |outs| == 0 then Success([])
    else if outs[0].Failure? then Failure(outs[0].error)
    else
      var rest := Collect(outs[1..]);
      if rest.Failure? then Failure(rest.error) else Success([outs[0].value] + rest.value)
  }

  /** A collection succeeds exactly when every outcome does, and then holds
      their values in order. */
  lemma {:induction false} CollectSucceeds<R, E>(outs: seq<Result<R, E>>)
    ensures Collect(outs).Success? <==> forall i :: 0 <= i < |outs| ==> outs[i].Success?
    ensures Collect(outs).Success? ==> forall i :: 0 <= i < |outs| ==> Collect(outs).value[i] == outs[i].value
  {
    if |outs| > 0 {
      CollectSucceeds(outs[1..]);
      assert forall i :: 1 <= i < |outs| ==> outs[1..][i - 1] == outs[i];
    }
  }

  /** Outcomes that all succeed collect to their values. */
  lemma {:induction false} CollectAllSucceed<R, E>(outs: seq<Result<R, E>>, values: seq<R>)
    requires |values| == |outs|
    requires forall j :: 0 <= j < |outs| ==> outs[j] == Success(values[j])
    ensures Collect(outs) == Success(values)
  {
    if |outs| > 0 {
      assert forall j :: 0 <= j < |outs| - 1 ==> outs[1..][j] == outs[j + 1];
      CollectAllSucceed(outs[1..], values[1..]);
      assert values == [values[0]] + values[1..];
    }
  }

  /** The outcome of a failing collection is the first failure. */
  lemma {:induction false} CollectFirstFailure<R, E>(outs: seq<Result<R, E>>, i: nat)
    requires i < |outs| && outs[i].Failure?
    requires forall j :: 0 <= j < i ==> outs[j].Success?
    ensures Collect(outs) == Failure(outs[i].error)
  {
    if i > 0 {
      assert outs[1..][i - 1] == outs[i];
      CollectFirstFailure(outs[1..], i - 1);
    }
  }

  /** Collecting a concatenation whose first part fails gives that failure. */
  lemma {:induction false} CollectConcatFirstFails<R, E>(outs1: seq<Result<R, E>>, outs2: seq<Result<R, E>>)
    requires Collect(outs1).Failure?
    ensures Collect(outs1 + outs2) == Collect(outs1)
  {
    var all := outs1 + outs2;
    assert all[0] == outs1[0];
    if outs1[0].Success? {
      assert all[1..] == outs1[1..] + outs2;
      CollectConcatFirstFails(outs1[1..], outs2);
    }
  }

  /** Collecting a concatenation whose first part succeeds: the second
      part's failure, or else the values of both parts, concatenated. */
  lemma {:induction false} CollectConcatAfterSuccess<R, E>(outs1: seq<Result<R, E>>, outs2: seq<Result<R, E>>)
    requires Collect(outs1).Success?
    ensures Collect(outs2).Failure? ==> Collect(outs1 + outs2) == Collect(outs2)
    ensures Collect(outs2).Success? ==>
              Collect(outs1 + outs2) == Success(Collect(outs1).value + Collect(outs2).value)
  {
    var all := outs1 + outs2;
    if |outs1| == 0 {
      assert all == outs2;
      if Collect(outs2).Success? {
        assert Collect(outs1).value + Collect(outs2).value == Collect(outs2).value;
      }
    } else {
      assert all[0] == outs1[0];
      assert all[1..] == outs1[1..] + outs2;
      CollectConcatAfterSuccess(outs1[1..], outs2);
      if Collect(outs2).Success? {
        var v, rs1, rs2 := outs1[0].value, Collect(outs1[1..]).value, Collect(outs2).value;
        assert [v] + (rs1 + rs2) == ([v] + rs1) + rs2;
      }
    }
  }

  /** The outcome of each rule on the table, in registration order. */
  function Outcomes(rules: seq<Rule>, t: Table): (outs: seq<Result<RuleResult, Error>>)
    requires AllFit(rules, t)
    ensures |outs| == |rules|
  {
    if |rules| == 0 then [] else [Evaluate(rules[0], t)] + Outcomes(rules[1..], t)
  }

  /** Entry `i` of the outcomes is the outcome of rule `i`. */
  lemma {:induction false} OutcomeAt(rules: seq<Rule>, t: Table, i: nat)
    requires AllFit(rules, t) && i < |rules|
    ensures Outcomes(rules, t)[i] == Evaluate(rules[i], t)
  {
    if i > 0 {
      assert rules[1..][i - 1] == rules[i];
      OutcomeAt(rules[1..], t, i - 1);
    }
  }

  lemma OutcomesPointwise(rules: seq<Rule>, t: Table)
    requires AllFit(rules, t)
    ensures forall i :: 0 <= i < |rules| ==> Outcomes(rules, t)[i] == Evaluate(rules[i], t)
  {
    forall i | 0 <= i < |rules|
      ensures Outcomes(rules, t)[i] == Evaluate(rules[i], t)
    {
      OutcomeAt(rules, t, i);
    }
  }

  /** Evaluates the rules front to back. The first rule that raises stops the
      evaluation and its error is the outcome; otherwise there is one result
      per rule, in the rules' order. */
  function EvaluateAll(rules: seq<Rule>, t: Table): (res: Result<seq<RuleResult>, Error>)
    requires AllFit(rules, t)
    ensures |rules| == 0 ==> res == Success([])
    ensures res.Success? <==> forall i :: 0 <= i < |rules| ==> Evaluate(rules[i], t).Success?
    ensures res.Success? ==> |res.value| == |rules|
    ensures res.Success? ==> forall i :: 0 <= i < |rules| ==> res.value[i] == Evaluate(rules[i], t).value
  {
    CollectSucceeds(Outcomes(rules, t));
    OutcomesPointwise(rules, t);
    Collect(Outcomes(rules, t))
  }

  /** If rule `i` is the first to raise, its error is the outcome of the validation. */
  lemma FirstErrorWins(rules: seq<Rule>, t: Table, i: nat)
    requires AllFit(rules, t) && i < |rules| && Evaluate(rules[i], t).Failure?
    requires forall j :: 0 <= j < i ==> Evaluate(rules[j], t).Success?
    ensures EvaluateAll(rules, t) == Failure(Evaluate(rules[i], t).error)
  {
    OutcomesPointwise(rules, t);
    CollectFirstFailure(Outcomes(rules, t), i);
  }

  /** When every rule succeeds, the validation returns their results. */
  lemma AllSucceedGivesResults(rules: seq<Rule>, t: Table, results: seq<RuleResult>)
    requires AllFit(rules, t) && |results| == |rules|
    requires forall j :: 0 <= j < |rules| ==> Evaluate(rules[j], t) == Success(results[j])
    ensures EvaluateAll(rules, t) == Success(results)
  {
    OutcomesPointwise(rules, t);
    CollectAllSucceed(Outcomes(rules, t), results);
  }

  /** `rule.evaluate(df)` for the `i`-th registered rule. */
  method EvaluateRegistered(v: Validator, t: Table, i: nat) returns (r: Result<RuleResult, Error>)
    requires AllFit(v.rules, t) && i < |v.rules|
    ensures r == Outcomes(v.rules, t)[i]
  {
    r := Evaluate(v.rules[i], t);
    OutcomeAt(v.rules, t, i);
  }

  /** `validate`: the loop over the registered rules. */
  method Validate(v: Validator, t: Table) returns (res: Result<seq<RuleResult>, Error>)
    requires AllFit(v.rules, t)
    ensures res == EvaluateAll(v.rules, t)
  {
    ghost var outs := Outcomes(v.rules, t);
    var results: seq<RuleResult> := [];
    var i := 0;
    while i < |v.rules|
      invariant 0 <= i <= |v.rules|
      invariant |results| == i
      invariant forall j :: 0 <= j < i ==> outs[j] == Success(results[j])
    {
      var r := EvaluateRegistered(v, t, i);
      if r.Failure? {
        CollectFirstFailure(outs, i);
        return Failure(r.error);
      }
      results := results + [r.value];
      i := i + 1;
    }
    CollectAllSucceed(outs, results);
    return Success(results);
  }

  /** Evaluating a concatenation of rule lists: the first list runs first,
      and if both succeed the results are concatenated. */
  lemma EvaluateAllConcat(rules1: seq<Rule>, rules2: seq<Rule>, t: Table)
    requires AllFit(rules1, t) && AllFit(rules2, t)
    ensures AllFit(rules1 + rules2, t)
    ensures EvaluateAll(rules1, t).Failure? ==>
              EvaluateAll(rules1 + rules2, t) == EvaluateAll(rules1, t)
    ensures EvaluateAll(rules1, t).Success? && EvaluateAll(rules2, t).Failure? ==>
              EvaluateAll(rules1 + rules2, t) == EvaluateAll(rules2, t)
    ensures EvaluateAll(rules1, t).Success? && EvaluateAll(rules2, t).Success? ==>
              EvaluateAll(rules1 + rules2, t) == Success(EvaluateAll(rules1, t).value + EvaluateAll(rules2, t).value)
  {
    var all := rules1 + rules2;
    assert AllFit(all, t) by {
      forall i | 0 <= i < |all|
        ensures MaskFits(all[i], t)
      {
        if i >= |rules1| {
          assert all[i] == rules2[i - |rules1|];
        }
      }
    }
    OutcomesPointwise(all, t);
    OutcomesPointwise(rules1, t);
    OutcomesPointwise(rules2, t);
    forall i | |rules1| <= i < |all|
      ensures all[i] == rules2[i - |rules1|]
    {
    }
    assert Outcomes(all, t) == Outcomes(rules1, t) + Outcomes(rules2, t);
    if EvaluateAll(rules1, t).Failure? {
      CollectConcatFirstFails(Outcomes(rules1, t), Outcomes(rules2, t));
    } else {
      CollectConcatAfterSuccess(Outcomes(rules1, t), Outcomes(rules2, t));
    }
  }

  /** Adding a rule runs it after the ones already registered: its result
      is appended to theirs, or its error is reported if only it fails. */
  lemma AddRuleEvaluatesLast(v: Validator, rule: Rule, t: Table)
    requires AllFit(v.rules, t) && MaskFits(rule, t)
    ensures AllFit(AddRule(v, rule).rules, t)
    ensures EvaluateAll(v.rules, t).Failure? ==>
              EvaluateAll(AddRule(v, rule).rules, t) == EvaluateAll(v.rules, t)
    ensures EvaluateAll(v.rules, t).Success? && Evaluate(rule, t).Failure? ==>
              EvaluateAll(AddRule(v, rule).rules, t) == Failure(Evaluate(rule, t).error)
    ensures EvaluateAll(v.rules, t).Success? && Evaluate(rule, t).Success? ==>
              EvaluateAll(AddRule(v, rule).rules, t) == Success(EvaluateAll(v.rules, t).value + [Evaluate(rule, t).value])
  {
    EvaluateAllConcat(v.rules, [rule], t);
    var one := EvaluateAll([rule], t);
    if Evaluate(rule, t).Failure? {
      FirstErrorWins([rule], t, 0);
    } else {
      assert one.value == [Evaluate(rule, t).value];
    }
  }

  /** `summary`: one record per result, in the same order. */
  function Summary(results: seq<RuleResult>): (s: seq<Record>)
    ensures |s| == |results|
    ensures forall i :: 0 <= i < |results| ==>
              s[i].name == results[i].name && s[i].passed == results[i].passed &&
              s[i].failures == results[i].failures && s[i].total == results[i].total
  {
    if |results| == 0 then [] else [ToDict(results[0])] + Summary(results[1..])
  }

  /** The summary of a concatenation is the concatenation of the summaries. */
  lemma SummaryConcat(rs1: seq<RuleResult>, rs2: seq<RuleResult>)
    ensures Summary(rs1 + rs2) == Summary(rs1) + Summary(rs2)
  {
  }

  /** Every record of a validation summary names its rule, in registration
      order, counts the table's rows, and is internally consistent. */
  lemma SummaryOfValidation(v: Validator, t: Table)
    requires AllFit(v.rules, t) && EvaluateAll(v.rules, t).Success?
    ensures var s := Summary(EvaluateAll(v.rules, t).value);
            && |s| == |v.rules|
            && forall i :: 0 <= i < |s| ==>
                 && s[i].name == v.rules[i].Name()
                 && s[i].total == |t.rows|
                 && 0 <= s[i].failures <= s[i].total
                 && (s[i].passed <==> s[i].failures == 0)
  {
  }

  /** On a table without rows every rule passes with zero failures out of zero. */
  lemma EmptyTableAllPass(v: Validator, t: Table)
    requires |t.rows| == 0 && AllFit(v.rules, t) && EvaluateAll(v.rules, t).Success?
    ensures forall i :: 0 <= i < |v.rules| ==>
              var r := EvaluateAll(v.rules, t).value[i];
              r.total == 0 && r.failures == 0 && r.passed
  {
  }
}
